=== FILE: README.md ===
# OSharp distributed-cache extensions in Dafny

This project models the cache-aside layer of OSharp (`OSharp.Caching.DistributedCacheExtensions`) and the dictionary helpers it sits beside (`OSharp.Extensions.DictionaryExtensions`), and proves what each operation promises.

The cache layer stores typed values in a string-only `IDistributedCache`. `Set` serializes a value with `ToJsonFunc` and writes it. `Get<TResult>` reads and deserializes it with `FromJsonFunc`, and gives `default(TResult)` on a miss. The get-or-populate `Get<TResult>(key, getFunc, ...)` first tries a plain read. On a miss it takes the key's `SemaphoreSlim` from the process-wide `KeyLocks` registry. Under the lock it reads again (double-checked locking). Only if that read also misses does it invoke `getFunc`. A default result is returned without being cached; any other result is written back. `Remove` deletes a list of keys.

Files:

- `wrappers.dfy`: `Option` and `Result`.
- `dictionary_extensions.dfy`: `GetOrDefault`, `GetOrAdd`, `GetValue<T>`, `SetValue<T>` over an immutable `map`, with their lemmas.
- `cache_state.dfy`: the store (`map<string, Entry>`, where an entry is a JSON payload plus the options it was written with), the `KeyLocks` registry, the faults, and `TypeInfo<V>`. `TypeInfo<V>` holds the default of `TResult`, the test `Equals(value, default(TResult))`, whether that default is null, and the codec.
- `distributed_cache.dfy`: every overload of `Set`/`SetAsync`, `Get`/`GetAsync`, get-or-populate (synchronous and asynchronous, options and seconds), `Remove`/`RemoveAsync`.
- `cache_properties.dfy`: properties that span several calls. These cover read-after-write, idempotent `Set`, no caching of a default, and single population across consecutive and interleaved callers.

How the model treats what a call cannot see:

- Every call is a pure function. Get-or-populate maps a `Cache` (store plus registry) to an `Outcome` (new cache, result, whether `getFunc` ran). `Set` and `Get` take a `Store` and return a `Result<Store, Fault>` or a `Result<V, Fault>`. `Remove` returns a `Removal` (the new store and the fault that ended it, if any). Exceptions become `Failure(fault)` results.
- `getFunc` is an input `produce`: `Returned(v)` or `Threw(reason)`. The outcome records whether it was invoked.
- Other callers are modelled by one input, `meanwhile`. It is the store as it stands when this call's lock wait ends, so any write another caller made in between is visible to the re-check.
- Each `KeyLocks` semaphore is a `KeyLock(taken)`. `taken` is the number of `Wait` calls minus `Release` calls on it. A synchronous call leaves every `taken` exactly as it found it, on every path.
- Cancellation in the asynchronous overloads is a `CancelPoint`. It names the one awaited operation that observes the token: the first read, the lock wait, the re-check, or the write-back.
- `ToJsonFunc` and `FromJsonFunc` become the `serialize` and `deserialize` fields of `TypeInfo`. `deserialize` yields `None` where deserializing or the cast to `TResult` throws. `RoundTrips(t)` is the assumption that deserializing a serialized value gives the value back. Only the lemmas that need it take it as a precondition.
- Every miss and default test is `t.isDefault(v)`, standing for `Equals(v, default(TResult))`. That is the type's own `Equals`, not mathematical equality. For `double`, `-0.0` counts as the default. So a producer returning `-0.0` is not cached, and the call returns `default(TResult)` itself.
- "Null" is `IsNull(t, v)`: the default of `TResult` is null (a reference type or `Nullable<T>`) and `v` passes the default test. So a value that get-or-populate has found to be non-default can never be rejected by `Set` as null.

Behaviour of the code worth noting:

- `Remove` only rejects a null key array. An empty array is accepted and removes nothing.
- `RemoveAsync` stops at the first removal that observes cancellation. The keys after it are not attempted.
- The asynchronous get-or-populate over-releases the key lock when its wait is cancelled (see Findings).
- Get-or-populate never validates its key. With an empty key the producer runs first, and only then does the inner `Set` reject the key.

## Model

| member | source | states |
|---|---|---|
| DictionaryExtensions.GetOrDefault | src/OSharp.Utils/Extensions/DictionaryExtensions.cs:29-32 | A present key yields its stored value and an absent key yields the default; the dictionary is not changed. |
| DictionaryExtensions.GetOrAdd | src/OSharp.Utils/Extensions/DictionaryExtensions.cs:43-50 | A present key returns its value with the dictionary unchanged and addFunc not called. An absent key calls addFunc, stores and returns its value, adds exactly that key, and keeps every other entry. |
| DictionaryExtensions.GetValue | src/OSharp.Utils/Extensions/DictionaryExtensions.cs:55-62 | An absent key yields the default of T. A present key yields the cast of its value, or the cast's failure. |
| DictionaryExtensions.SetValue | src/OSharp.Utils/Extensions/DictionaryExtensions.cs:72-79 | An absent key gets addFunc(). A present key gets updateFunc applied to the cast of the old value. Other entries are unchanged, the key set grows by at most the key, and a failed cast changes nothing. |
| DictionaryExtensions.GetOrAddIdempotent | src/OSharp.Utils/Extensions/DictionaryExtensions.cs:43-50 | A second GetOrAdd on the same key returns the first one's value, leaves the dictionary as the first left it, and never calls its delegate. |
| DictionaryExtensions.GetOrDefaultAfterGetOrAdd | src/OSharp.Utils/Extensions/DictionaryExtensions.cs:29-50 | GetOrDefault after GetOrAdd reads back the value GetOrAdd returned. |
| DictionaryExtensions.GetValueAfterSetValue | src/OSharp.Utils/Extensions/DictionaryExtensions.cs:55-79 | When casting undoes boxing, GetValue after a successful SetValue yields the added or updated value. |
| DistributedCache.Set | src/OSharp.Utils/Caching/DistributedCacheExtensions.cs:41-55 | Fails exactly when the key is empty or the value is null, with the key checked first. On success the store maps the key to the serialized value and the given options, and every other key is unchanged. |
| DistributedCache.SetAsync | src/OSharp.Utils/Caching/DistributedCacheExtensions.cs:60-74 | Without cancellation it behaves exactly like Set. Argument errors take precedence over cancellation. A cancelled valid write fails with Cancelled. |
| DistributedCache.SetForSeconds | src/OSharp.Utils/Caching/DistributedCacheExtensions.cs:79-88 | Also rejects cacheSeconds <= 0, after the key and value checks. On success it writes the serialized value with an absolute expiration of cacheSeconds and changes no other key. |
| DistributedCache.SetAsyncForSeconds | src/OSharp.Utils/Caching/DistributedCacheExtensions.cs:93-102 | Without cancellation it equals the synchronous seconds overload. Its argument errors are the same. A cancelled valid write fails with Cancelled. |
| DistributedCache.Get | src/OSharp.Utils/Caching/DistributedCacheExtensions.cs:107-116 | An absent key reads as the default of TResult. A present key reads as the deserialized payload, or as DeserializationFailed when deserialization fails. |
| DistributedCache.GetAsync | src/OSharp.Utils/Caching/DistributedCacheExtensions.cs:121-129 | Its own body, as the source has one. It is proved to agree with Get on every store and key when not cancelled. A cancelled read fails with Cancelled. |
| DistributedCache.Register | src/OSharp.Utils/Caching/DistributedCacheExtensions.cs:142 | The registry gains exactly the key (if new) and no existing lock changes. |
| DistributedCache.Wait | src/OSharp.Utils/Caching/DistributedCacheExtensions.cs:145 | Takes one permit from the key's lock and touches no other lock. |
| DistributedCache.Release | src/OSharp.Utils/Caching/DistributedCacheExtensions.cs:164 | Hands one permit back to the key's lock and touches no other lock. |
| DistributedCache.Populate | src/OSharp.Utils/Caching/DistributedCacheExtensions.cs:147-160 | The producer runs exactly when the re-check misses. Without it, the re-read is returned and nothing is written. A thrown or default result writes nothing. A non-default result is written under a non-empty key and returned; an empty key makes the write fail. |
| DistributedCache.GetOrPopulate | src/OSharp.Utils/Caching/DistributedCacheExtensions.cs:134-166 | A first read that does not miss is returned with no lock and no change. The producer runs only if both reads miss. After a miss the key is registered. The registry only gains this key. Every lock's permit balance is the same after the call as before, on every path. |
| DistributedCache.GetOrPopulateForSeconds | src/OSharp.Utils/Caching/DistributedCacheExtensions.cs:253-260 | cacheSeconds <= 0 fails before any read, lock or producer call. The producer runs exactly when the duration is positive and both reads miss. A non-default produced value under a non-empty key is returned and written with an absolute expiration of cacheSeconds, and no other key changes. The registry only gains the key, and every lock stays balanced. |
| DistributedCache.PopulateAsync | src/OSharp.Utils/Caching/DistributedCacheExtensions.cs:188-242 | With no cancellation inside the lock it equals the synchronous critical section. A cancelled re-check fails without calling the producer. A cancelled write-back writes nothing and fails where the synchronous one would have written. |
| DistributedCache.GetOrPopulateAsync | src/OSharp.Utils/Caching/DistributedCacheExtensions.cs:171-248 | Without cancellation it equals the synchronous get-or-populate. A cancelled first read fails before any lock. A cancelled lock wait fails without running the producer, returns the store as it stood when the wait ended, and leaves the key's lock one permit below its balance before the call. All other paths are balanced. |
| DistributedCache.GetOrPopulateAsyncFixed | src/OSharp.Utils/Caching/DistributedCacheExtensions.cs:183-206 | Gives the same results, store, producer calls and registry keys as the code as written. Every lock's permit balance is unchanged on every path, including a cancelled wait. |
| DistributedCache.GetOrPopulateAsyncForSeconds | src/OSharp.Utils/Caching/DistributedCacheExtensions.cs:265-292 | cacheSeconds <= 0 fails before anything else. Without cancellation it equals the synchronous seconds overload. Like the overload it forwards to, a cancelled lock wait after a miss fails without running the producer, keeps the store as it stood when the wait ended, and leaves the key's lock one permit below its balance. Every other path is balanced. |
| DistributedCache.RemoveEach | src/OSharp.Utils/Caching/DistributedCacheExtensions.cs:300-303 | A key survives exactly when it was present and is not listed, and survivors keep their entries. An absent listed key is no error. |
| DistributedCache.Remove | src/OSharp.Utils/Caching/DistributedCacheExtensions.cs:297-304 | A null key array fails with ArgumentNull and changes nothing. Otherwise no fault is raised, every listed key is absent, and every unlisted key is unchanged. |
| DistributedCache.RemoveAsync | src/OSharp.Utils/Caching/DistributedCacheExtensions.cs:309-316 | Without cancellation it equals Remove. A cancellation at key i fails with Cancelled after removing exactly the keys listed before i. |
| CacheProperties.GetAfterSet | src/OSharp.Utils/Caching/DistributedCacheExtensions.cs:41-116 | With a round-tripping codec, Get after a successful Set yields the value that was set. |
| CacheProperties.SetIdempotent | src/OSharp.Utils/Caching/DistributedCacheExtensions.cs:41-55 | Setting the same key and value twice leaves the store as setting it once. |
| CacheProperties.DefaultIsNotCached | src/OSharp.Utils/Caching/DistributedCacheExtensions.cs:154-158 | A producer result that Equals the default is not cached: the call returns default(TResult) itself, the key stays absent, and a later read still misses. |
| CacheProperties.OtherKeysUntouched | src/OSharp.Utils/Caching/DistributedCacheExtensions.cs:134-166 | Get-or-populate on one key changes no other key's entry and no other key's lock. |
| CacheProperties.WaiterSeesPopulatedEntry | src/OSharp.Utils/Caching/DistributedCacheExtensions.cs:142-152 | Take a caller that missed and waited while another populated the key. Its re-check returns the produced value without invoking its own producer. |
| CacheProperties.SettledKeyStaysSettled | src/OSharp.Utils/Caching/DistributedCacheExtensions.cs:136-140 | Once a read of the key does not miss, every later caller gets that same read back, runs no producer, and changes nothing. |
| CacheProperties.AtMostOnePopulation | src/OSharp.Utils/Caching/DistributedCacheExtensions.cs:134-166 | Consider consecutive callers with a non-default producer, a round-tripping codec and a non-empty key. No caller but the first ever invokes the producer. |
| CacheProperties.AllCallersGetProducedValue | src/OSharp.Utils/Caching/DistributedCacheExtensions.cs:136-160 | On an absent key the first caller populates, every caller returns the produced value, and the store then holds it. |
| CacheProperties.EmptyKeyRunsProducerButNeverCaches | src/OSharp.Utils/Caching/DistributedCacheExtensions.cs:154-159 | With the empty key, get-or-populate still runs the producer. The write-back then fails on the key check, so nothing is cached, though a lock is registered for the empty key. |
| CacheProperties.CancelledWaitOverReleases | src/OSharp.Utils/Caching/DistributedCacheExtensions.cs:183-206 | Take an absent key whose lock another caller holds, and cancel the lock wait. The call fails with Cancelled without running the producer, yet its release hands back the holder's permit, so the lock reads as free while the holder is still inside. |
| CacheProperties.RemoveIgnoresAbsentKeys | src/OSharp.Utils/Caching/DistributedCacheExtensions.cs:297-304 | Removing "a" and an absent "b" removes "a" and raises nothing. |
| CacheProperties.RemoveEachIsDifference | src/OSharp.Utils/Caching/DistributedCacheExtensions.cs:300-303 | Removing a list of keys equals taking the map difference with the set of listed keys. |

## Findings

| source | as written | input that shows it | evidently intended | confidence | as-written member | corrected member |
|---|---|---|---|---|---|---|
| src/OSharp.Utils/Caching/DistributedCacheExtensions.cs:184-206 | `await keyLock.WaitAsync(token)` is the first statement inside the `try`, so the `finally` calls `Release()` even when the wait was cancelled and no permit was taken (the same shape is at :225-247) | an absent key and a token that is cancelled while the call waits for the key lock: the call fails with cancellation and the lock has one more free permit than before | release only a permit that was acquired: await the wait before entering the `try` | not executed; high | DistributedCache.GetOrPopulateAsync, CacheProperties.CancelledWaitOverReleases | DistributedCache.GetOrPopulateAsyncFixed |

`CacheProperties.CancelledWaitOverReleases` exhibits the as-written case on a concrete input: a lock held by another caller, and a wait cancelled while queued. The extra `Release` then frees the lock while its holder is still inside, so a third caller can enter the critical section alongside it. When the holder later releases, the count would exceed the maximum of `SemaphoreSlim(1, 1)`, and .NET throws `SemaphoreFullException` from that holder's `finally`. If the lock is free and the token is already cancelled, the extra `Release` throws `SemaphoreFullException` at once, replacing the cancellation; the model does not show that case (see Left out). The seconds overload `GetOrPopulateAsyncForSeconds` forwards to the body as written and inherits the over-release.

## Left out

- Thread blocking and interleaving: a lock wait is modelled as completing, and other callers show up only through `meanwhile`. Mutual exclusion between real threads, and behaviour across processes, are not modelled.
- DistributedCache.GetOrPopulateAsync: counts permits, but not `SemaphoreSlim`'s maximum-count check, because that belongs to the .NET runtime. So it does not show the `SemaphoreFullException` that the extra release can raise.
- DistributedCache.GetOrPopulateAsyncForSeconds: inherits the same omission from the overload it forwards to. `SemaphoreSlim`'s maximum-count check is not modelled, so the `SemaphoreFullException` its extra release can raise is not shown.
- The `IDistributedCache` implementation and its I/O errors. The store is a map and its operations always succeed unless cancelled.
- Expiration timing: `DistributedCacheEntryOptions` is kept only as the options an entry was written with, and no clock is modelled.
- The JSON codec and `CastTo<T>` internals. They are parameters (`serialize`, `deserialize`, `cast`, `box`). Round-tripping is an explicit precondition where a lemma needs it, and `ToJsonFunc` is assumed not to throw.
- `ToJsonFunc`/`FromJsonFunc` being reassignable globals: a call takes the codec as a parameter.
- Null strings, null key elements, null delegates and null dictionaries. Keys are plain strings; only the empty key and a null key array are modelled.
- The exact exception types `Check.NotNullOrEmpty`, `Check.NotNull` and `Check.GreaterThan` raise: `OSharp.Data.Check` is not part of this model, so they are named by the argument they reject.
- Whether an argument error of an `async` overload is thrown at the call or stored in the returned task; both are a `Failure` here.
- Cancellation observed inside the producer: it is a `Threw` outcome of the producer, like any other exception it raises.
- Exceptions thrown by the `addFunc`/`updateFunc` delegates of the dictionary helpers: delegates are total functions.
- `src/OSharp.Wpf/Stylet/ServiceProviderBootstrapper.cs` (application hosting) and `src/OSharp.Utils/Logging/RollingFile/Internal/LogMessage.cs` (a data record): no cache behaviour.

=== FILE: cache_properties.dfy ===
/**
 Properties that relate several calls of the distributed-cache extensions:
 reading back what was written, repeated writes, and the stampede protection
 of get-or-populate across consecutive and interleaved callers.
 */
module CacheProperties {
  import opened Wrappers
  import opened CacheState
  import opened DistributedCache

  /** Get after a successful Set reads back the value, when the codec round-trips. */
  lemma GetAfterSet<V(!new)>(store: Store, t: TypeInfo<V>, key: string, value: V, options: Option<EntryOptions>)
    requires RoundTrips(t)
    ensures var written := Set(store, t, key, value, options);
            written.Success? ==> Get(written.value, t, key) == Success(value)
  {
  }

  /** Setting the same value twice leaves the store as setting it once. */
  lemma SetIdempotent<V>(store: Store, t: TypeInfo<V>, key: string, value: V, options: Option<EntryOptions>)
    ensures var once := Set(store, t, key, value, options);
            once.Success? ==> Set(once.value, t, key, value, options) == once
  {
    var once := Set(store, t, key, value, options);
    if once.Success? {
      assert once.value[key := Entry(t.serialize(value), options)] == once.value;
    }
  }

  /**
   A producer result that Equals the default is not cached: the call returns
   default(TResult) itself, the key stays absent and the next read still misses.
   */
  lemma DefaultIsNotCached<V>(c: Cache, t: TypeInfo<V>, key: string, options: Option<EntryOptions>, d: V)
    requires key !in c.store && t.isDefault(t.zero) && t.isDefault(d)
    ensures var out := GetOrPopulate(c, t, key, options, c.store, Returned(d));
            && out.producerCalled
            && out.result == Success(t.zero)
            && key !in out.cache.store
            && Miss(out.cache.store, t, key)
  {
  }

  /** Get-or-populate on one key leaves every other key of the store as the call found it. */
  lemma OtherKeysUntouched<V>(c: Cache, t: TypeInfo<V>, key: string, options: Option<EntryOptions>,
                                  meanwhile: Store, produce: Produced<V>, other: string)
    requires other != key
    ensures var out := GetOrPopulate(c, t, key, options, meanwhile, produce);
            var seen := if Miss(c.store, t, key) then meanwhile else c.store;
            && (other in out.cache.store <==> other in seen)
            && (other in seen ==> out.cache.store[other] == seen[other])
            && Taken(out.cache.locks, other) == Taken(c.locks, other)
  {
  }

  /**
   Two callers miss on the same key; the second waits for the lock while the
   first populates it. The second one's re-check finds the entry, so the
   producer runs once and both return its value.
   */
  lemma WaiterSeesPopulatedEntry<V(!new)>(c: Cache, t: TypeInfo<V>, key: string, options: Option<EntryOptions>,
                                        v: V, second: Produced<V>)
    requires RoundTrips(t) && !t.isDefault(v) && key != ""
    requires Miss(c.store, t, key)
    ensures var a := GetOrPopulate(c, t, key, options, c.store, Returned(v));
            var b := GetOrPopulate(c, t, key, options, a.cache.store, second);
            && a.producerCalled && a.result == Success(v)
            && !b.producerCalled && b.result == Success(v)
  {
    var a := GetOrPopulate(c, t, key, options, c.store, Returned(v));
    assert Get(a.cache.store, t, key) == Success(v);
  }

  /** `n` callers one after another on the same key, each seeing the store the previous one left. */
  function RunCallers<V>(c: Cache, t: TypeInfo<V>, key: string, options: Option<EntryOptions>,
                             produce: Produced<V>, n: nat): (runs: seq<Outcome<V>>)
    ensures |runs| == n
    decreases n
  {
    if n == 0 then []
    else
      var first := GetOrPopulate(c, t, key, options, c.store, produce);
      [first] + RunCallers(first.cache, t, key, options, produce, n - 1)
  }

  /** Once a read of the key does not miss, every later caller gets that read back and changes nothing. */
  lemma {:induction false} SettledKeyStaysSettled<V>(c: Cache, t: TypeInfo<V>, key: string, options: Option<EntryOptions>,
                                                       produce: Produced<V>, n: nat)
    requires !Miss(c.store, t, key)
    ensures forall i :: 0 <= i < n ==> RunCallers(c, t, key, options, produce, n)[i] == Outcome(c, Get(c.store, t, key), false)
  {
    if n > 0 {
      var runs := RunCallers(c, t, key, options, produce, n);
      var rest := RunCallers(c, t, key, options, produce, n - 1);
      assert runs == [Outcome(c, Get(c.store, t, key), false)] + rest;
      SettledKeyStaysSettled(c, t, key, options, produce, n - 1);
      forall i | 1 <= i < n
        ensures runs[i] == Outcome(c, Get(c.store, t, key), false)
      {
        assert runs[i] == rest[i - 1];
      }
    }
  }

  /**
   With a producer that yields a non-default value and a codec that round-trips,
   consecutive callers on a non-empty key invoke the producer at most once:
   only the first caller ever can.
   */
  lemma AtMostOnePopulation<V(!new)>(c: Cache, t: TypeInfo<V>, key: string, options: Option<EntryOptions>,
                                   v: V, n: nat)
    requires RoundTrips(t) && !t.isDefault(v) && key != ""
    ensures var runs := RunCallers(c, t, key, options, Returned(v), n);
            forall i :: 1 <= i < n ==> !runs[i].producerCalled
  {
    if n > 0 {
      var runs := RunCallers(c, t, key, options, Returned(v), n);
      var first := GetOrPopulate(c, t, key, options, c.store, Returned(v));
      var rest := RunCallers(first.cache, t, key, options, Returned(v), n - 1);
      assert runs == [first] + rest;
      if Miss(c.store, t, key) {
        assert Get(first.cache.store, t, key) == Success(v);
      }
      SettledKeyStaysSettled(first.cache, t, key, options, Returned(v), n - 1);
      forall i | 1 <= i < n
        ensures !runs[i].producerCalled
      {
        assert runs[i] == rest[i - 1];
      }
    }
  }

  /** On an absent key, the first caller populates and every caller returns the produced value. */
  lemma AllCallersGetProducedValue<V(!new)>(c: Cache, t: TypeInfo<V>, key: string, options: Option<EntryOptions>,
                                          v: V, n: nat)
    requires RoundTrips(t) && !t.isDefault(v) && t.isDefault(t.zero) && key != "" && key !in c.store && n > 0
    ensures var runs := RunCallers(c, t, key, options, Returned(v), n);
            && runs[0].producerCalled
            && (forall i :: 0 <= i < n ==> runs[i].result == Success(v))
            && Get(runs[n - 1].cache.store, t, key) == Success(v)
  {
    var runs := RunCallers(c, t, key, options, Returned(v), n);
    var first := GetOrPopulate(c, t, key, options, c.store, Returned(v));
    var rest := RunCallers(first.cache, t, key, options, Returned(v), n - 1);
    assert runs == [first] + rest;
    assert Get(first.cache.store, t, key) == Success(v);
    SettledKeyStaysSettled(first.cache, t, key, options, Returned(v), n - 1);
    forall i | 1 <= i < n
      ensures runs[i] == Outcome(first.cache, Success(v), false)
    {
      assert runs[i] == rest[i - 1];
    }
    assert runs[n - 1].cache.store == first.cache.store;
  }

  /**
   Get-or-populate never validates its key: with the empty key the producer
   runs, and only then does Set reject the key, so nothing is ever cached.
   */
  lemma EmptyKeyRunsProducerButNeverCaches<V>(c: Cache, t: TypeInfo<V>, options: Option<EntryOptions>, v: V)
    requires "" !in c.store && t.isDefault(t.zero) && !t.isDefault(v)
    ensures var out := GetOrPopulate(c, t, "", options, c.store, Returned(v));
            && out.producerCalled
            && out.result == Failure(ArgumentInvalid("key"))
            && out.cache.store == c.store
            && "" in out.cache.locks
  {
  }

  /** A codec for int whose details do not matter to the example below. */
  const Ints: TypeInfo<int> := TypeInfo(0, (n: int) => n == 0, false, (n: int) => "0", (s: string) => Some(0))

  /**
   The asynchronous get-or-populate as written, on an absent key whose lock
   another caller holds, with the lock wait cancelled: the call fails with
   Cancelled, yet its release hands back the holder's permit, so the lock
   reads as free while the holder is still inside.
   */
  lemma CancelledWaitOverReleases()
    ensures var c := Cache(map[], map["k" := KeyLock(1)]);
            var out := GetOrPopulateAsync(c, Ints, "k", None, map[], Returned(1), LockWait);
            && out.result == Failure(Cancelled)
            && !out.producerCalled
            && Taken(c.locks, "k") == 1
            && Taken(out.cache.locks, "k") == 0
  {
  }

  /** The removal scenario: removing "a" and an absent "b" removes "a" and raises nothing. */
  lemma RemoveIgnoresAbsentKeys(e: Entry)
    ensures Remove(map["a" := e], Some(["a", "b"])) == Removal(map[], None)
  {
  }

  /** Removing a list of keys is the map difference with the set of listed keys. */
  lemma RemoveEachIsDifference(store: Store, keys: seq<string>)
    ensures RemoveEach(store, keys) == store - (set k | k in keys)
  {
  }
}

=== FILE: cache_state.dfy ===
/**
 State and collaborators of the distributed-cache extensions: the external
 string store, the process-wide KeyLocks registry, the JSON codec that the
 ToJsonFunc / FromJsonFunc delegates stand for, and the exceptions the
 extensions raise or let through.
 */
module CacheState {
  import opened Wrappers

  /**
   The expiration part of DistributedCacheEntryOptions, in whole seconds:
   absolute expiration relative to now, and a sliding window.
   */
  datatype EntryOptions = EntryOptions(absoluteRelativeSeconds: Option<int>, slidingSeconds: Option<int>)

  /** The options object the cacheSeconds overloads build: absolute expiration, no sliding window. */
  function AbsoluteAfter(cacheSeconds: int): (o: EntryOptions)
    ensures o.absoluteRelativeSeconds == Some(cacheSeconds) && o.slidingSeconds.None?
  {
    EntryOptions(Some(cacheSeconds), None)
  }

  /**
   One entry of the external store: the JSON payload, and the options it was
   written with (None when SetString was called without options).
   */
  datatype Entry = Entry(json: string, options: Option<EntryOptions>)

  /** The IDistributedCache as the extensions see it: string keys to string payloads. */
  type Store = map<string, Entry>

  /**
   One SemaphoreSlim(1, 1) of the KeyLocks registry, reduced to the number of
   permits taken from it by the modelled calls: Wait adds one, Release takes
   one away. A fresh lock has none taken.
   */
  datatype KeyLock = KeyLock(taken: int)

  const FreshLock := KeyLock(0)

  /** KeyLocks: key to lock; entries are added on first use and never removed. */
  type Registry = map<string, KeyLock>

  /** Everything a call can observe or change: the store and the lock registry. */
  datatype Cache = Cache(store: Store, locks: Registry)

  /** Permits taken from the lock of `key`; a key with no lock yet has none taken. */
  function Taken(locks: Registry, key: string): int
  {
    if key in locks then locks[key].taken else 0
  }

  /**
   Exceptions that reach the caller. The three argument faults are what
   Check.NotNullOrEmpty, Check.NotNull and Check.GreaterThan raise;
   DeserializationFailed is FromJsonFunc (or the cast to TResult) throwing;
   Cancelled is an awaited operation observing its CancellationToken;
   ProducerFailed is whatever the getFunc delegate threw, passed through.
   */
  datatype Fault =
    | ArgumentInvalid(param: string)
    | ArgumentNull(param: string)
    | ArgumentOutOfRange(param: string)
    | DeserializationFailed
    | Cancelled
    | ProducerFailed(reason: string)

  /**
   What the extensions know about a TResult: its default value; the test
   Equals(value, default(TResult)), which is the type's own Equals and need
   not be mathematical equality; whether the default of TResult is null; and
   the codec. `deserialize` yields None where FromJsonFunc or the cast to
   TResult throws.
   */
  datatype TypeInfo<!V> = TypeInfo(zero: V, isDefault: V -> bool, defaultIsNull: bool,
                                   serialize: V -> string, deserialize: string -> Option<V>)

  /**
   `value` is null. When the default of TResult is null, Equals(value, null)
   holds exactly of null, so the default test is the null test.
   */
  predicate IsNull<V>(t: TypeInfo<V>, value: V)
  {
    t.defaultIsNull && t.isDefault(value)
  }

  /** The codec reconstructs every value it serialized. */
  ghost predicate RoundTrips<V(!new)>(t: TypeInfo<V>)
  {
    forall v :: t.deserialize(t.serialize(v)) == Some(v)
  }

  /** `after` is `before` with `key` mapped to `e` and every other key exactly as it was. */
  ghost predicate WritesOnly(before: Store, after: Store, key: string, e: Entry)
  {
    && key in after && after[key] == e
    && (forall k :: k in after && k != key ==> k in before && after[k] == before[k])
    && (forall k :: k in before ==> k in after)
  }
}

=== FILE: dictionary_extensions.dfy ===
/**
 Model of OSharp.Extensions.DictionaryExtensions: the four helpers over a
 dictionary, with the dictionary as an immutable map. A delegate becomes a
 Dafny function value; the functions report whether the delegate was invoked.
 CastTo<T> is a parameter `cast` that yields None where the conversion throws,
 and `box` is the implicit conversion of a T back to object.
 */
module DictionaryExtensions {
  import opened Wrappers

  /** The exception CastTo<T> raises when a stored object does not convert. */
  datatype CastError = InvalidCast

  /** GetOrDefault: the stored value, or the value type's default when the key is absent. */
  function GetOrDefault<K(==), V>(d: map<K, V>, key: K, zero: V): (r: V)
    ensures key in d ==> r == d[key]
    ensures key !in d ==> r == zero
  {
    if key in d then d[key] else zero
  }

  /** The dictionary after a GetOrAdd, the value it returned, and whether addFunc ran. */
  datatype Lookup<K(==), V> = Lookup(dict: map<K, V>, value: V, addCalled: bool)

  /** GetOrAdd: return the stored value, or store and return addFunc(). */
  function GetOrAdd<K(==), V>(d: map<K, V>, key: K, addFunc: () -> V): (r: Lookup<K, V>)
    ensures key in d ==> r.dict == d && r.value == d[key] && !r.addCalled
    ensures key !in d ==> r.addCalled && r.value == addFunc()
    ensures key in r.dict && r.dict[key] == r.value
    ensures r.dict.Keys == d.Keys + {key}
    ensures forall k :: k in d && k != key ==> r.dict[k] == d[k]
  {
    if key in d then Lookup(d, d[key], false)
    else
      var v := addFunc();
      Lookup(d[key := v], v, true)
  }

  /** GetValue<T>: absent keys give the default of T; present ones go through CastTo<T>. */
  function GetValue<O, T>(d: map<string, O>, key: string, cast: O -> Option<T>, zero: T): (r: Result<T, CastError>)
    ensures key !in d ==> r == Success(zero)
    ensures key in d ==> (r.Success? <==> cast(d[key]).Some?)
    ensures key in d && r.Success? ==> r.value == cast(d[key]).value
  {
    if key in d then
      match cast(d[key])
      case Some(v) => Success(v)
      case None => Failure(InvalidCast)
    else Success(zero)
  }

  /**
   SetValue<T>: store addFunc() under an absent key, or updateFunc applied to the
   cast of the current value under a present one. A failed cast leaves the
   dictionary as it was.
   */
  function SetValue<O, T>(d: map<string, O>, key: string, addFunc: () -> T, updateFunc: T -> T,
                          cast: O -> Option<T>, box: T -> O): (r: Result<map<string, O>, CastError>)
    ensures r.Failure? <==> key in d && cast(d[key]).None?
    ensures r.Success? ==> key in r.value && r.value.Keys == d.Keys + {key}
    ensures r.Success? && key !in d ==> r.value[key] == box(addFunc())
    ensures r.Success? && key in d ==> r.value[key] == box(updateFunc(cast(d[key]).value))
    ensures r.Success? ==> forall k :: k in d && k != key ==> r.value[k] == d[k]
  {
    if key in d then
      match cast(d[key])
      case Some(current) => Success(d[key := box(updateFunc(current))])
      case None => Failure(InvalidCast)
    else Success(d[key := box(addFunc())])
  }

  /** Boxing a T and casting it back gives the same T. */
  ghost predicate CastUndoesBox<O, T(!new)>(cast: O -> Option<T>, box: T -> O)
  {
    forall x :: cast(box(x)) == Some(x)
  }

  /** A second GetOrAdd on the same key returns the first one's value, changes nothing and never calls its delegate. */
  lemma GetOrAddIdempotent<K, V>(d: map<K, V>, key: K, addFunc: () -> V, secondFunc: () -> V)
    ensures var first := GetOrAdd(d, key, addFunc);
            var second := GetOrAdd(first.dict, key, secondFunc);
            second.dict == first.dict && second.value == first.value && !second.addCalled
  {
  }

  /** GetOrDefault after GetOrAdd reads back the value GetOrAdd returned. */
  lemma GetOrDefaultAfterGetOrAdd<K, V>(d: map<K, V>, key: K, addFunc: () -> V, zero: V)
    ensures var added := GetOrAdd(d, key, addFunc);
            GetOrDefault(added.dict, key, zero) == added.value
  {
  }

  /** GetValue after a successful SetValue reads back the value that was stored. */
  lemma GetValueAfterSetValue<O, T(!new)>(d: map<string, O>, key: string, addFunc: () -> T, updateFunc: T -> T,
                                         cast: O -> Option<T>, box: T -> O, zero: T)
    requires CastUndoesBox(cast, box)
    ensures var stored := SetValue(d, key, addFunc, updateFunc, cast, box);
            stored.Success? ==>
              GetValue(stored.value, key, cast, zero)
                == Success(if key in d then updateFunc(cast(d[key]).value) else addFunc())
  {
  }
}

=== FILE: distributed_cache.dfy ===
/**
 Model of OSharp.Caching.DistributedCacheExtensions: typed Set / Get over a
 string store, get-or-populate guarded by a per-key lock, and Remove.

 A call is a pure step from a Cache to an Outcome. What the call cannot see
 or decide is an input: `produce` is what the getFunc delegate does when it
 is invoked, `meanwhile` is the store as it stands when the lock wait ends
 (other callers may have written to it while this one waited), and `cancel`
 says which awaited operation of an asynchronous call observes its
 CancellationToken.
 */
module DistributedCache {
  import opened Wrappers
  import opened CacheState

  // ---------------------------------------------------------------- Set

  /** Set: validate the key and the value, serialize the value, write it under the key. */
  function Set<V>(store: Store, t: TypeInfo<V>, key: string, value: V, options: Option<EntryOptions>): (r: Result<Store, Fault>)
    ensures r.Success? <==> key != "" && !IsNull(t, value)
    ensures key == "" ==> r == Failure(ArgumentInvalid("key"))
    ensures key != "" && IsNull(t, value) ==> r == Failure(ArgumentNull("value"))
    ensures r.Success? ==> WritesOnly(store, r.value, key, Entry(t.serialize(value), options))
  {
    if key == "" then Failure(ArgumentInvalid("key"))
    else if IsNull(t, value) then Failure(ArgumentNull("value"))
    else Success(store[key := Entry(t.serialize(value), options)])
  }

  /**
   SetAsync: the same validation, then SetStringAsync, which fails with
   Cancelled instead of writing when it observes the token.
   */
  function SetAsync<V>(store: Store, t: TypeInfo<V>, key: string, value: V, options: Option<EntryOptions>,
                           cancelled: bool): (r: Result<Store, Fault>)
    ensures !cancelled ==> r == Set(store, t, key, value, options)
    ensures Set(store, t, key, value, options).Failure? ==> r == Set(store, t, key, value, options)
    ensures cancelled && Set(store, t, key, value, options).Success? ==> r == Failure(Cancelled)
  {
    if key == "" then Failure(ArgumentInvalid("key"))
    else if IsNull(t, value) then Failure(ArgumentNull("value"))
    else if cancelled then Failure(Cancelled)
    else Success(store[key := Entry(t.serialize(value), options)])
  }

  /** Set with cacheSeconds: additionally rejects a non-positive duration, then writes with an absolute expiration. */
  function SetForSeconds<V>(store: Store, t: TypeInfo<V>, key: string, value: V, cacheSeconds: int): (r: Result<Store, Fault>)
    ensures r.Success? <==> key != "" && !IsNull(t, value) && cacheSeconds > 0
    ensures key == "" ==> r == Failure(ArgumentInvalid("key"))
    ensures key != "" && IsNull(t, value) ==> r == Failure(ArgumentNull("value"))
    ensures key != "" && !IsNull(t, value) && cacheSeconds <= 0 ==> r == Failure(ArgumentOutOfRange("cacheSeconds"))
    ensures r.Success? ==> WritesOnly(store, r.value, key, Entry(t.serialize(value), Some(AbsoluteAfter(cacheSeconds))))
  {
    if key == "" then Failure(ArgumentInvalid("key"))
    else if IsNull(t, value) then Failure(ArgumentNull("value"))
    else if cacheSeconds <= 0 then Failure(ArgumentOutOfRange("cacheSeconds"))
    else Set(store, t, key, value, Some(AbsoluteAfter(cacheSeconds)))
  }

  /** SetAsync with cacheSeconds: the same checks, then the asynchronous write. */
  function SetAsyncForSeconds<V>(store: Store, t: TypeInfo<V>, key: string, value: V, cacheSeconds: int,
                                     cancelled: bool): (r: Result<Store, Fault>)
    ensures !cancelled ==> r == SetForSeconds(store, t, key, value, cacheSeconds)
    ensures SetForSeconds(store, t, key, value, cacheSeconds).Failure? ==> r == SetForSeconds(store, t, key, value, cacheSeconds)
    ensures cancelled && SetForSeconds(store, t, key, value, cacheSeconds).Success? ==> r == Failure(Cancelled)
  {
    if key == "" then Failure(ArgumentInvalid("key"))
    else if IsNull(t, value) then Failure(ArgumentNull("value"))
    else if cacheSeconds <= 0 then Failure(ArgumentOutOfRange("cacheSeconds"))
    else SetAsync(store, t, key, value, Some(AbsoluteAfter(cacheSeconds)), cancelled)
  }

  // ---------------------------------------------------------------- Get

  /** Get<TResult>: the default of TResult on a miss, otherwise the deserialized payload. Never writes. */
  function Get<V>(store: Store, t: TypeInfo<V>, key: string): (r: Result<V, Fault>)
    ensures key !in store ==> r == Success(t.zero)
    ensures key in store ==> (r.Success? <==> t.deserialize(store[key].json).Some?)
    ensures key in store && r.Success? ==> Some(r.value) == t.deserialize(store[key].json)
    ensures r.Failure? ==> r.error == DeserializationFailed
  {
    if key !in store then Success(t.zero)
    else
      match t.deserialize(store[key].json)
      case Some(v) => Success(v)
      case None => Failure(DeserializationFailed)
  }

  /**
   GetAsync<TResult>: its own body, the awaited GetStringAsync followed by the
   same miss test and deserialization as Get.
   */
  function GetAsync<V>(store: Store, t: TypeInfo<V>, key: string, cancelled: bool): (r: Result<V, Fault>)
    ensures !cancelled ==> r == Get(store, t, key)
    ensures cancelled ==> r == Failure(Cancelled)
  {
    if cancelled then Failure(Cancelled)
    else if key !in store then Success(t.zero)
    else
      match t.deserialize(store[key].json)
      case Some(v) => Success(v)
      case None => Failure(DeserializationFailed)
  }

  /** A read that succeeded with a value Equals to the default of TResult: what the extensions treat as "not cached". */
  predicate Miss<V>(store: Store, t: TypeInfo<V>, key: string)
  {
    Get(store, t, key).Success? && t.isDefault(Get(store, t, key).value)
  }

  // ---------------------------------------------------------------- KeyLocks

  /**
   ConcurrentDictionary.GetOrAdd(key, k => new SemaphoreSlim(1, 1)) on KeyLocks:
   an existing lock is reused, a missing one is created fresh; the registry
   only ever gains the key.
   */
  function Register(locks: Registry, key: string): (r: Registry)
    ensures key in r && r.Keys == locks.Keys + {key}
    ensures forall k :: Taken(r, k) == Taken(locks, k)
  {
    if key in locks then locks else locks[key := FreshLock]
  }

  /** Wait / WaitAsync completing: one more permit taken from the key's lock. */
  function Wait(locks: Registry, key: string): (r: Registry)
    requires key in locks
    ensures r.Keys == locks.Keys
    ensures Taken(r, key) == Taken(locks, key) + 1
    ensures forall k :: k != key ==> Taken(r, k) == Taken(locks, k)
  {
    locks[key := KeyLock(locks[key].taken + 1)]
  }

  /** Release: one permit handed back to the key's lock, whether or not this caller took one. */
  function Release(locks: Registry, key: string): (r: Registry)
    requires key in locks
    ensures r.Keys == locks.Keys
    ensures Taken(r, key) == Taken(locks, key) - 1
    ensures forall k :: k != key ==> Taken(r, k) == Taken(locks, k)
  {
    locks[key := KeyLock(locks[key].taken - 1)]
  }

  // ---------------------------------------------------------------- get-or-populate

  /** What the getFunc delegate does when invoked: return a value or throw. */
  datatype Produced<V> = Returned(value: V) | Threw(reason: string)

  /** The body between acquiring and releasing the lock: the store it leaves, the result, whether getFunc ran. */
  datatype Section<V> = Section(store: Store, result: Result<V, Fault>, producerCalled: bool)

  /** A whole get-or-populate call: the cache it leaves, its result, whether getFunc ran. */
  datatype Outcome<V> = Outcome(cache: Cache, result: Result<V, Fault>, producerCalled: bool)

  /**
   The critical section of the synchronous get-or-populate: re-check the
   store, and only on a second miss invoke getFunc; a default result is
   returned without caching, any other result is Set and returned.
   */
  function Populate<V>(store: Store, t: TypeInfo<V>, key: string, options: Option<EntryOptions>,
                           produce: Produced<V>): (s: Section<V>)
    ensures s.producerCalled <==> Miss(store, t, key)
    ensures !s.producerCalled ==> s.store == store && s.result == Get(store, t, key)
    ensures s.producerCalled && produce.Threw? ==>
              s.store == store && s.result == Failure(ProducerFailed(produce.reason))
    ensures s.producerCalled && produce.Returned? && t.isDefault(produce.value) ==>
              s.store == store && s.result == Success(t.zero)
    ensures s.producerCalled && produce.Returned? && !t.isDefault(produce.value) && key == "" ==>
              s.store == store && s.result == Failure(ArgumentInvalid("key"))
    ensures s.producerCalled && produce.Returned? && !t.isDefault(produce.value) && key != "" ==>
              s.result == Success(produce.value)
              && WritesOnly(store, s.store, key, Entry(t.serialize(produce.value), options))
  {
    match Get(store, t, key)
    case Failure(e) => Section(store, Failure(e), false)
    case Success(v) =>
      if !t.isDefault(v) then Section(store, Success(v), false)
      else
        match produce
        case Threw(reason) => Section(store, Failure(ProducerFailed(reason)), true)
        case Returned(p) =>
          if t.isDefault(p) then Section(store, Success(t.zero), true)
          else
            match Set(store, t, key, p, options)
            case Failure(e) => Section(store, Failure(e), true)
            case Success(written) => Section(written, Success(p), true)
  }

  /**
   Get<TResult>(key, getFunc, options): a hit on the first read is returned
   without locking; otherwise the key's lock is registered, taken, the
   critical section runs on the store as it stands then, and the lock is
   released on every exit from the try.
   */
  function GetOrPopulate<V>(c: Cache, t: TypeInfo<V>, key: string, options: Option<EntryOptions>,
                                meanwhile: Store, produce: Produced<V>): (out: Outcome<V>)
    ensures !Miss(c.store, t, key) ==> out == Outcome(c, Get(c.store, t, key), false)
    ensures Miss(c.store, t, key) ==>
              var s := Populate(meanwhile, t, key, options, produce);
              out.cache.store == s.store && out.result == s.result && out.producerCalled == s.producerCalled
    ensures out.producerCalled <==> Miss(c.store, t, key) && Miss(meanwhile, t, key)
    ensures Miss(c.store, t, key) ==> key in out.cache.locks
    ensures c.locks.Keys <= out.cache.locks.Keys <= c.locks.Keys + {key}
    ensures forall k :: Taken(out.cache.locks, k) == Taken(c.locks, k)
  {
    match Get(c.store, t, key)
    case Failure(e) => Outcome(c, Failure(e), false)
    case Success(v) =>
      if !t.isDefault(v) then Outcome(c, Success(v), false)
      else
        var keyLock := Register(c.locks, key);
        var s := Populate(meanwhile, t, key, options, produce);
        Outcome(Cache(s.store, Release(Wait(keyLock, key), key)), s.result, s.producerCalled)
  }

  /**
   Get<TResult>(key, getFunc, cacheSeconds): rejects a non-positive duration
   before any read or lock; otherwise every entry it writes expires
   cacheSeconds after the write.
   */
  function GetOrPopulateForSeconds<V>(c: Cache, t: TypeInfo<V>, key: string, cacheSeconds: int,
                                      meanwhile: Store, produce: Produced<V>): (out: Outcome<V>)
    ensures cacheSeconds <= 0 ==> out == Outcome(c, Failure(ArgumentOutOfRange("cacheSeconds")), false)
    ensures c.locks.Keys <= out.cache.locks.Keys <= c.locks.Keys + {key}
    ensures forall k :: Taken(out.cache.locks, k) == Taken(c.locks, k)
    ensures out.producerCalled <==> cacheSeconds > 0 && Miss(c.store, t, key) && Miss(meanwhile, t, key)
    ensures cacheSeconds > 0 && !Miss(c.store, t, key) ==> out == Outcome(c, Get(c.store, t, key), false)
    ensures cacheSeconds > 0 && Miss(c.store, t, key) ==>
              var s := Populate(meanwhile, t, key, Some(AbsoluteAfter(cacheSeconds)), produce);
              out.cache.store == s.store && out.result == s.result && out.producerCalled == s.producerCalled
    ensures out.producerCalled && produce.Returned? && !t.isDefault(produce.value) && key != "" ==>
              && out.result == Success(produce.value)
              && WritesOnly(meanwhile, out.cache.store, key,
                            Entry(t.serialize(produce.value), Some(AbsoluteAfter(cacheSeconds))))
  {
    if cacheSeconds <= 0 then Outcome(c, Failure(ArgumentOutOfRange("cacheSeconds")), false)
    else GetOrPopulate(c, t, key, Some(AbsoluteAfter(cacheSeconds)), meanwhile, produce)
  }

  /** The awaited operation of an asynchronous get-or-populate that observes cancellation, if any. */
  datatype CancelPoint = NotCancelled | FirstRead | LockWait | Recheck | WriteBack

  /** The critical section of GetAsync<TResult>(key, getAsyncFunc, ...): Populate with awaited reads and writes. */
  function PopulateAsync<V>(store: Store, t: TypeInfo<V>, key: string, options: Option<EntryOptions>,
                                produce: Produced<V>, cancel: CancelPoint): (s: Section<V>)
    ensures cancel != Recheck && cancel != WriteBack ==> s == Populate(store, t, key, options, produce)
    ensures cancel == Recheck ==> s == Section(store, Failure(Cancelled), false)
    ensures cancel == WriteBack ==>
              var synced := Populate(store, t, key, options, produce);
              s.store == store && s.producerCalled == synced.producerCalled
              && (if synced.producerCalled && produce.Returned? && !t.isDefault(produce.value) && key != ""
                  then s.result == Failure(Cancelled)
                  else s.result == synced.result)
  {
    match GetAsync(store, t, key, cancel == Recheck)
    case Failure(e) => Section(store, Failure(e), false)
    case Success(v) =>
      if !t.isDefault(v) then Section(store, Success(v), false)
      else
        match produce
        case Threw(reason) => Section(store, Failure(ProducerFailed(reason)), true)
        case Returned(p) =>
          if t.isDefault(p) then Section(store, Success(t.zero), true)
          else
            match SetAsync(store, t, key, p, options, cancel == WriteBack)
            case Failure(e) => Section(store, Failure(e), true)
            case Success(written) => Section(written, Success(p), true)
  }

  /**
   GetAsync<TResult>(key, getAsyncFunc, options, token), as written: the
   WaitAsync sits inside the try, so when the wait itself is cancelled the
   finally still releases a permit this call never took.
   */
  function GetOrPopulateAsync<V>(c: Cache, t: TypeInfo<V>, key: string, options: Option<EntryOptions>,
                                     meanwhile: Store, produce: Produced<V>, cancel: CancelPoint): (out: Outcome<V>)
    ensures cancel == NotCancelled ==> out == GetOrPopulate(c, t, key, options, meanwhile, produce)
    ensures cancel == FirstRead ==> out == Outcome(c, Failure(Cancelled), false)
    ensures cancel != FirstRead && !Miss(c.store, t, key) ==> out == Outcome(c, Get(c.store, t, key), false)
    ensures cancel != FirstRead && Miss(c.store, t, key) ==> key in out.cache.locks
    ensures c.locks.Keys <= out.cache.locks.Keys <= c.locks.Keys + {key}
    ensures cancel == LockWait && Miss(c.store, t, key) ==>
              && out.result == Failure(Cancelled) && !out.producerCalled
              && out.cache.store == meanwhile
              && Taken(out.cache.locks, key) == Taken(c.locks, key) - 1
    ensures forall k :: k != key || cancel != LockWait || !Miss(c.store, t, key) ==>
              Taken(out.cache.locks, k) == Taken(c.locks, k)
    ensures cancel != FirstRead && cancel != LockWait && Miss(c.store, t, key) ==>
              var s := PopulateAsync(meanwhile, t, key, options, produce, cancel);
              out.cache.store == s.store && out.result == s.result && out.producerCalled == s.producerCalled
  {
    match GetAsync(c.store, t, key, cancel == FirstRead)
    case Failure(e) => Outcome(c, Failure(e), false)
    case Success(v) =>
      if !t.isDefault(v) then Outcome(c, Success(v), false)
      else
        var keyLock := Register(c.locks, key);
        if cancel == LockWait then
          Outcome(Cache(meanwhile, Release(keyLock, key)), Failure(Cancelled), false)
        else
          var s := PopulateAsync(meanwhile, t, key, options, produce, cancel);
          Outcome(Cache(s.store, Release(Wait(keyLock, key), key)), s.result, s.producerCalled)
  }

  /**
   The asynchronous get-or-populate with the wait moved in front of the try:
   a cancelled wait releases nothing. Same results and store as the code as
   written; the lock balance holds on every path.
   */
  function GetOrPopulateAsyncFixed<V>(c: Cache, t: TypeInfo<V>, key: string, options: Option<EntryOptions>,
                                          meanwhile: Store, produce: Produced<V>, cancel: CancelPoint): (out: Outcome<V>)
    ensures forall k :: Taken(out.cache.locks, k) == Taken(c.locks, k)
    ensures var asWritten := GetOrPopulateAsync(c, t, key, options, meanwhile, produce, cancel);
            && out.result == asWritten.result
            && out.cache.store == asWritten.cache.store
            && out.producerCalled == asWritten.producerCalled
            && out.cache.locks.Keys == asWritten.cache.locks.Keys
  {
    match GetAsync(c.store, t, key, cancel == FirstRead)
    case Failure(e) => Outcome(c, Failure(e), false)
    case Success(v) =>
      if !t.isDefault(v) then Outcome(c, Success(v), false)
      else
        var keyLock := Register(c.locks, key);
        if cancel == LockWait then
          Outcome(Cache(meanwhile, keyLock), Failure(Cancelled), false)
        else
          var s := PopulateAsync(meanwhile, t, key, options, produce, cancel);
          Outcome(Cache(s.store, Release(Wait(keyLock, key), key)), s.result, s.producerCalled)
  }

  /**
   GetAsync<TResult>(key, getAsyncFunc, cacheSeconds, token): the duration
   check, then the asynchronous get-or-populate as written, so a cancelled
   lock wait over-releases here too.
   */
  function GetOrPopulateAsyncForSeconds<V>(c: Cache, t: TypeInfo<V>, key: string, cacheSeconds: int,
                                           meanwhile: Store, produce: Produced<V>, cancel: CancelPoint): (out: Outcome<V>)
    ensures cacheSeconds <= 0 ==> out == Outcome(c, Failure(ArgumentOutOfRange("cacheSeconds")), false)
    ensures cacheSeconds > 0 && cancel == NotCancelled ==>
              out == GetOrPopulateForSeconds(c, t, key, cacheSeconds, meanwhile, produce)
    ensures cacheSeconds > 0 && cancel == FirstRead ==> out == Outcome(c, Failure(Cancelled), false)
    ensures cacheSeconds > 0 && cancel != FirstRead && !Miss(c.store, t, key) ==>
              out == Outcome(c, Get(c.store, t, key), false)
    ensures cacheSeconds > 0 && cancel != FirstRead && cancel != LockWait && Miss(c.store, t, key) ==>
              var s := PopulateAsync(meanwhile, t, key, Some(AbsoluteAfter(cacheSeconds)), produce, cancel);
              out.cache.store == s.store && out.result == s.result && out.producerCalled == s.producerCalled
    ensures c.locks.Keys <= out.cache.locks.Keys <= c.locks.Keys + {key}
    ensures cacheSeconds > 0 && cancel == LockWait && Miss(c.store, t, key) ==>
              && out.result == Failure(Cancelled) && !out.producerCalled
              && out.cache.store == meanwhile
              && Taken(out.cache.locks, key) == Taken(c.locks, key) - 1
    ensures forall k :: k != key || cacheSeconds <= 0 || cancel != LockWait || !Miss(c.store, t, key) ==>
              Taken(out.cache.locks, k) == Taken(c.locks, k)
  {
    if cacheSeconds <= 0 then Outcome(c, Failure(ArgumentOutOfRange("cacheSeconds")), false)
    else GetOrPopulateAsync(c, t, key, Some(AbsoluteAfter(cacheSeconds)), meanwhile, produce, cancel)
  }

  // ---------------------------------------------------------------- Remove

  /** The store after a removal, and the exception that ended it, if any. */
  datatype Removal = Removal(store: Store, fault: Option<Fault>)

  /** The foreach over the keys: IDistributedCache.Remove on each, in order; an absent key is no error. */
  function RemoveEach(store: Store, keys: seq<string>): (r: Store)
    ensures forall k :: k in r <==> k in store && k !in keys
    ensures forall k :: k in r ==> r[k] == store[k]
    decreases |keys|
  {
    if |keys| == 0 then store
    else RemoveEach(store - {keys[0]}, keys[1..])
  }

  /** Remove(params keys): a null array is rejected; otherwise every listed key is removed. */
  function Remove(store: Store, keys: Option<seq<string>>): (r: Removal)
    ensures keys.None? ==> r == Removal(store, Some(ArgumentNull("keys")))
    ensures keys.Some? ==> r.fault.None?
    ensures keys.Some? ==> forall k :: k in r.store <==> k in store && k !in keys.value
    ensures forall k :: k in r.store ==> k in store && r.store[k] == store[k]
  {
    match keys
    case None => Removal(store, Some(ArgumentNull("keys")))
    case Some(ks) => Removal(RemoveEach(store, ks), None)
  }

  /**
   RemoveAsync(token, params keys): as Remove, except that when the removal of
   keys[i] observes the token (cancelAt == Some(i)) the loop stops there:
   the keys before it are gone, it and the later ones are untouched.
   */
  function RemoveAsync(store: Store, keys: Option<seq<string>>, cancelAt: Option<nat>): (r: Removal)
    ensures keys.None? ==> r == Removal(store, Some(ArgumentNull("keys")))
    ensures keys.Some? && (cancelAt.None? || cancelAt.value >= |keys.value|) ==> r == Remove(store, keys)
    ensures keys.Some? && cancelAt.Some? && cancelAt.value < |keys.value| ==>
              && r.fault == Some(Cancelled)
              && (forall k :: k in r.store <==> k in store && k !in keys.value[..cancelAt.value])
    ensures forall k :: k in r.store ==> k in store && r.store[k] == store[k]
  {
    match keys
    case None => Removal(store, Some(ArgumentNull("keys")))
    case Some(ks) =>
      if cancelAt.Some? && cancelAt.value < |ks| then Removal(RemoveEach(store, ks[..cancelAt.value]), Some(Cancelled))
      else Removal(RemoveEach(store, ks), None)
  }
}

=== FILE: wrappers.dfy ===
/** Failure-carrying datatypes shared by the model. */
module Wrappers {

  /** A value that may be missing. */
  datatype Option<+T> = None | Some(value: T)

  /** Either a value or the error that replaced it (an exception in the modelled code). */
  datatype Result<+R, +E> = Success(value: R) | Failure(error: E)
}
